=== FILE: README.md ===
# Robust I/O and socket setup of the echo toolkit, in Dafny

This project models the core of the `web-server` toolkit: the Rio ("robust
I/O") reader in `web-server/common.c` and `web-server/common.h`, and the
candidate walk of `open_cliendfd` and `open_listenfd` in
`web-server/main.c`. The same walk is repeated at `web-server/common.c:287-374`.

- **Descriptor.** The descriptor behind the reader is a finite script of what
  its successive `read(2)` calls do (`Transport`):
  - `Data(bytes)`: bytes are ready;
  - `Intr`: the call is interrupted (EINTR);
  - `Fail`: the call fails with any other errno;
  - `Eof`: end of file.

  One call consumes one event. A chunk longer than the request is split, and
  its tail stays first. End of file is permanent.
- **Reference definitions.** Two functions summarise a script: `Stream`, the
  bytes delivered before the end, and `HitsFail`, whether that end is an error.
  Every reader is specified against them. The contract therefore holds however
  the descriptor chunks its bytes and wherever it is interrupted.
- **Unbuffered reader (`RioUnbuffered`).** `rio_readn` is specified by one
  outcome predicate, `ReadNOutcome`: `n` bytes, the short count at end of file,
  or -1 on an error.
- **Buffered reader (`RioBuffered`).**
  - The `rio_t` record is a value `Rio(fd, cnt, bufptr, buf)`. `bufptr` is an
    offset into the 8192-byte buffer. `Valid` is the buffer invariant.
  - `rio_read` is a refill step and a serve step.
  - `rio_readnb` meets the same outcome predicate as `rio_readn`, over the
    reader's unread bytes followed by the stream (`Pending`).
- **Line reader (`RioLine`).**
  - `rio_readlineb` is a loop method. It reads one byte at a time through
    `rio_read`.
  - It is proved to produce `LineRecord`: a reference definition built on
    `Line`, the first line of the pending bytes within the room `maxlen - 1`.
  - The bytes after a newline stay with the reader for the next call.
- **Socket setup (`Connect`).**
  - Each address-list entry is reduced to what the walk observes: what
    `socket()` returns for it, and whether `connect()`/`bind()` succeeds.
  - The helpers return their value, the entry `p` stops at, and the trace of
    calls they make (`socket`, `setsockopt`, `connect`/`bind`, `Close`,
    `listen`, `Freeaddrinfo`).
  - `open_listenfd` is modelled as written: its loop starts at `p = 0`. A
    corrected version is modelled beside it (see Findings).

## Model

| member | source | states |
|---|---|---|
| Transport.Read | web-server/common.c:159-166 | one read(2) call: at most `k` bytes, delivered from the front of the stream with nothing lost or reordered; an interruption keeps the stream; end of file and an error only at the stream's end; every non-EOF call makes progress |
| Transport.NextChunkStartsStream | web-server/common.c:159-166 | what the first read(2) not interrupted returns, asking for k bytes, is the front of the stream, at most k bytes, and empty only when the stream is; when it is not empty, the script left after that read delivers the rest of the stream and ends the same way |
| Transport.ReadNOutcomeBounds | web-server/common.c:98-118 | every read-n outcome is -1 or a count in [0, n] equal to the number of bytes stored, which are the stream's first bytes; -1 exactly when an error comes before n bytes |
| Transport.ReadNOutcomeUnique | web-server/common.c:98-118 | the count and the stored bytes of a read-n are fixed by the stream and how it ends |
| Transport.InterruptIsTransparent | web-server/common.c:106-108 | an interrupted call leaves the delivered stream and its ending unchanged |
| Transport.SplitChunkIsTransparent | web-server/common.c:115-116 | delivering bytes in two short reads instead of one leaves the stream and its ending unchanged |
| RioUnbuffered.ReadNLoop | web-server/common.c:102-117 | the loop, with `done` already stored, meets the read-n outcome over `done` followed by the stream, and leaves the rest of the stream unread |
| RioUnbuffered.ReadN | web-server/common.c:96-119 | rio_readn stores the stream's first n bytes and returns n, or returns the short count at end of file, or -1 on an error; the rest of the stream stays unread; n = 0 returns 0 without reading |
| RioUnbuffered.ReadNIgnoresInterrupts | web-server/common.c:104-111 | an EINTR before the call changes nothing: same count, bytes and script left |
| RioUnbuffered.ReadNIgnoresChunking | web-server/common.c:98-118 | two descriptors delivering the same bytes and ending the same way give the same count and bytes, whatever the chunking and interruptions |
| RioUnbuffered.ShortReadsGiveSameResult | web-server/common.c:102-117 | one-byte short reads give rio_readn the same result as a single full read |
| RioBuffered.Rio.Valid | web-server/common.h:20-27 | the rio_t invariant: the buffer has its fixed capacity of 8192 bytes, the count is at least -1, and the unread region [rio_bufptr, rio_bufptr + rio_cnt) lies inside the buffer |
| RioBuffered.Rio.Unread | web-server/common.h:24-26 | the unread bytes of the internal buffer: rio_cnt of them from rio_bufptr on when the count is positive, none otherwise, never more than the buffer holds |
| RioBuffered.ReadInitB | web-server/common.c:181-186 | rio_readinitb binds the reader to fd, sets the unread count to 0 and the next byte to the buffer's start, leaves the buffer's contents alone, and keeps the buffer invariant |
| RioBuffered.InitBExposesStream | web-server/common.c:181-186 | a freshly initialised reader can hand out exactly the descriptor's stream |
| RioBuffered.Refill | web-server/common.c:158-169 | the refill loop reads only when no byte is buffered; it leaves count -1 exactly on an error with nothing left, 0 exactly at end of file with nothing left, otherwise a positive count at the buffer's start with no byte lost; EINTR retries; the buffer then holds exactly what one read() returned, which is the first data chunk not interrupted cut at 8192 bytes, and the script is what that read left |
| RioBuffered.Serve | web-server/common.c:171-178 | the copy hands out min(n, rio_cnt) bytes, the front of the unread region, advances bufptr and lowers cnt by that count so bufptr + cnt is unchanged, and keeps the buffer |
| RioBuffered.ServeKeepsPending | web-server/common.c:172-178 | the bytes handed out followed by what the reader can still hand out are what it could hand out before; with n > 0 at least one byte is served |
| RioBuffered.RioRead | web-server/common.c:154-179 | rio_read returns -1 exactly after an error with nothing buffered or pending, 0 exactly at end of file, otherwise a count in [1, n] of bytes taken in order from the pending bytes; after a refill that count is min(n, what the one read() returned), the bytes are the front of that chunk, and the rest of the chunk stays buffered; buffered bytes are served without touching the descriptor; the buffer invariant is kept |
| RioBuffered.RefillReadsOneChunk | web-server/common.c:158-178 | with an empty buffer and two chunks coming, rio_read returns the first chunk only, even when n leaves room for both |
| RioBuffered.DrainOneMore | web-server/common.c:154-179 | handing out m + 1 bytes through the buffer leaves the reader where handing out m bytes and then one more does |
| RioBuffered.DrainBuffered | web-server/common.c:171-177 | while the buffer holds the m bytes asked for, the descriptor is not read and the buffer keeps the bytes after them |
| RioBuffered.DrainKeepsPending | web-server/common.c:154-179 | handing out m bytes through the buffer loses none: the buffer plus the descriptor's stream then deliver the pending bytes after the first m |
| RioBuffered.DrainKeepsEnding | web-server/common.c:154-179 | handing out bytes through the buffer does not change whether the descriptor ends with an error or end of file |
| RioBuffered.DrainKeepsTailBuffered | web-server/common.c:158-178 | with "a\nb" coming on an empty buffer, handing out "a\n" leaves "b" in the buffer and nothing on the descriptor |
| RioBuffered.RioReadDrains | web-server/common.c:154-179 | after rio_read hands out ret bytes, the buffer and the descriptor are where handing out ret bytes one buffer refill at a time leaves them |
| RioBuffered.RioReadIgnoresInterrupts | web-server/common.c:158-164 | an interrupted refill is retried with nothing changed: same reply as without the interruption |
| RioBuffered.ReadNBLoop | web-server/common.c:198-205 | the loop of rio_readnb meets the read-n outcome over `done` followed by the pending bytes and leaves the rest pending; after an error the reader holds count -1 |
| RioBuffered.ReadNB | web-server/common.c:192-207 | rio_readnb meets the read-n outcome over the reader's unread bytes followed by the stream: n bytes, the short count at end of file, or -1 on an error; the rest stays pending; n = 0 changes nothing |
| RioBuffered.ReadNBMatchesReadN | web-server/common.c:192-207 | on a freshly initialised reader, rio_readnb returns the same count and bytes as rio_readn on the bare descriptor |
| RioLine.Line | web-server/common.c:215-225 | the reference line: a prefix of the pending bytes within the room, with no newline before its last byte, that ends in a newline, fills the room, or is all of them |
| RioLine.LineIsUnique | web-server/common.c:215-225 | any prefix with those three properties is the reference line |
| RioLine.ReadLineBounds | web-server/common.c:215-238 | the line record returns -1 or a count of at most maxlen - 1; the stored bytes are that count of pending bytes followed by one NUL (or nothing at all for 0 at end of file); the bytes left are the rest of the pending bytes; -1 only on an error, with the partial line stored without a NUL |
| RioLine.LineFitsMaxLine | web-server/common.h:15 | with maxlen = MAXLINE (8192), the line reader writes at most 8192 bytes into the caller's buffer, NUL included, and returns less than 8192 |
| RioLine.ReadLineStopsAfterNewline | web-server/common.c:218-225 | with the first newline within the room, the record stores the bytes up to and including it, adds a NUL, returns their count, and leaves every byte after the newline pending |
| RioLine.ReadLineCutsLongLine | web-server/common.c:215-236 | with no newline among the first maxlen - 1 bytes, exactly maxlen - 1 bytes are stored and NUL-terminated, and the rest of the line stays pending for the next call |
| RioLine.ReadLinePartialAtEof | web-server/common.c:226-238 | end of file after some bytes and before a newline or full room stores the partial line, NUL-terminated, and returns its length |
| RioLine.ReadLineFails | web-server/common.c:233-234 | an error before the line ends returns -1 and stores the bytes read so far without a NUL |
| RioLine.ReadLineAtEof | web-server/common.c:226-229 | end of file before any byte returns 0 with nothing stored and nothing left pending, so the next call does the same |
| RioLine.ReadLineIgnoresInterrupts | web-server/common.c:158-164 | an interrupted read before the line ends leaves the line record unchanged |
| RioLine.ReadByte | web-server/common.c:218 | rio_read(rp, &c, 1) returns one byte taken from the front of the pending bytes, or 0 exactly at end of file with nothing pending, or -1 exactly after an error with nothing pending; a buffered byte is served without read(); an empty buffer is refilled by one read() whose other bytes stay buffered |
| RioLine.ScanByte | web-server/common.c:216-235 | one pass of the loop keeps its invariant, which is that the stored bytes are the front of the pending bytes with no newline, or else stops at a newline, an error or end of file with the reply that case calls for; the reader stays where handing out the stored bytes through the buffer leaves it |
| RioLine.ScanLine | web-server/common.c:215-238 | the loop and its final NUL stop in exactly one of four ways: after a newline, with the room full, after an error, or at end of file; each gives the reply that case calls for; after a newline or a full room the reader is where handing out the line's bytes through the buffer leaves it; maxlen 0 or 1 stores only a NUL and reads nothing |
| RioLine.ReadLineB | web-server/common.c:210-239 | rio_readlineb returns the count and stored bytes of the line record of the pending bytes; it leaves exactly the record's remaining bytes pending, or the count -1 after an error; maxlen 0 or 1 returns 0 with a NUL and reads nothing; a finished line leaves the bytes after it in the buffer, where handing out the line's bytes leaves them, and a line already buffered is served without read() |
| Connect.Attempt | web-server/main.c:74-128 | one pass of the loop calls socket() first for its entry, then connect() (bind() for the server) only if that succeeded, then Close() last and only if that call failed; the server variant calls setsockopt() right after a successful socket(); each call is made once |
| Connect.WalkFrom | web-server/main.c:73-87 | the loop stops at an entry of the list or runs off its end |
| Connect.WalkStops | web-server/main.c:73-87 | the loop stops at the first entry whose socket() and connect()/bind() succeed, or runs off the end when there is none |
| Connect.WalkInOrder | web-server/main.c:73 | the loop's calls are about the entries it reaches, front to back |
| Connect.WalkSockets | web-server/main.c:76-79 | socket() is called for every entry the loop reaches and no other |
| Connect.WalkLinks | web-server/main.c:82 | connect() or bind() is called for every entry reached whose socket() succeeded, and for no entry whose socket() failed |
| Connect.WalkReuses | web-server/main.c:121 | setsockopt(SO_REUSEADDR) is called, on the server side only, for every entry reached whose socket() succeeded |
| Connect.AttemptReuses | web-server/main.c:121 | one pass calls setsockopt() on its own entry only, on the server side, after a successful socket() |
| Connect.WalkCloses | web-server/main.c:72-128 | every socket the loop opened for an entry it moved past is closed, and no other |
| Connect.OpenClientFd | web-server/main.c:60-97 | returns -1 exactly when no entry both opens and connects; otherwise returns the socket of the first entry that does; calls socket() for each entry up to that one, connect() for each whose socket opened, Close() for each of those except the one returned, never setsockopt(); frees the list once |
| Connect.OpenListenFd | web-server/main.c:99-146 | as written, the loop starts at the null pointer: no call on any entry, the list freed once, and -1 returned whatever the list holds |
| Connect.OpenListenFdFixed | web-server/main.c:99-146 | with the loop started at the list head: calls socket() on exactly the entries up to the one that binds (all of them when none does) and bind() and setsockopt() on exactly those of them whose socket() succeeded; binds the first entry whose socket() and bind() succeed; returns its socket exactly when listen() then succeeds; frees the list once, before listen(); calls listen(), with backlog 1024, on the bound entry and on no other, so not at all when none binds; in the loop, Close() is called on exactly the entries passed over whose socket() succeeded; every socket opened is closed unless it is the one returned |
| Connect.ListenTail | web-server/main.c:131-145 | after the loop: the list is freed first and exactly once; with no entry bound, -1 and nothing else; otherwise listen() once, with backlog 1024, on the bound entry only, right after the free, returning its socket when that succeeds and, when it fails, closing it after listen() and returning -1 |
| Connect.ListenSkipsUsableCandidate | web-server/main.c:112 | on a one-entry list whose entry binds and listens, the corrected helper returns that socket while the code as written returns -1 without calling socket() |
| Connect.ListenAndClientAgree | web-server/main.c:73-126 | the corrected open_listenfd stops at the same entry as open_cliendfd, given the same outcome per entry |

## Left out

- `rio_writen` (`web-server/common.c:122-143`) is not modelled. Line 130
  assigns the comparison `write(...) <= 0` to `nwritten`, so a successful write
  leaves `nwritten` at 0 and the loop never advances. There is no working
  write-n behaviour to model, and an intended one would not be this code.
- The `Close` and `Getaddrinfo` wrappers are not modelled
  (`web-server/main.c:25-44`, `web-server/common.c:21-40`). They compare an
  uninitialised `rc` with `==` where `=` was meant, which is undefined
  behaviour.
  - The model still records each `Close` call as a step, because `close()` is
    called.
  - The model takes the address list as an input. A failed resolution is
    therefore not modelled.
- Error wrappers that print and exit (`unix_error`, `gai_error`, `app_error`,
  and the capitalised `Rio_*`/`Open_*` wrappers) are not modelled. Neither are
  `Accept`, `Getnameinfo`, `Fgets`, `Fputs`, or the `printf` in `common.c`.
  They have no logic beyond printing.
- The system calls are abstracted. `read`, `socket`, `connect`, `bind`,
  `listen` and errno are script events or per-entry outcome inputs. Descriptor
  numbers are whatever `socket()` is given to return. `setsockopt` is taken to
  succeed, since its wrapper exits otherwise.
- Integer widths are not modelled: the `size_t`/`int` conversions in `rio_read`
  (`cnt = n`) and in `rio_readlineb` (`n < maxlen`). Counts are unbounded
  integers, as if every request fitted in an `int`.
- The caller's buffer is modelled as the bytes stored at its front. The bytes
  beyond them are not written by the C code and are not modelled.
- `rio_readlineb` with `maxlen` 0 writes a NUL into a zero-size buffer. It is
  modelled as written (`Reply(0, [Nul], ...)`), without a bound on the buffer.
- Each failing read is one event. A descriptor's errno after a failure is not
  kept.
- The hash table under `data-structures/hashtable` is not part of this model:
  it declares functions that are never defined.
- Connect.WalkFrom: its own contract only bounds the entry the loop stops at.
  Which entry that is, and which calls the loop makes, are stated by
  `WalkStops`, `WalkInOrder`, `WalkSockets`, `WalkLinks`, `WalkReuses` and
  `WalkCloses`.
- RioLine.ReadLineB: the model proves interrupt transparency on the record
  (`ReadLineIgnoresInterrupts`), not on the method. A method cannot be called
  from a lemma, and the method's contract depends only on `Pending` and
  `HitsFail`.
- Error reporting is kept as the C code does it:
  - Every failure is the return value -1. No typed error or errno value is
    modelled.
  - When `rio_readlineb` fails, the bytes read before the error stay in the
    caller's buffer without a NUL. The model does not report "no line" for
    this case.
  - `open_listenfd` as written tries no entry at all (see Findings).

## Findings

| source | as written | input that shows it | evidently intended | confidence | as-written member | corrected member |
|---|---|---|---|---|---|---|
| web-server/main.c:112 | `for (p = 0; p; p = p->ai_next)` starts the walk at the null pointer, so no entry is tried and the helper always returns -1 | an address list with one entry whose socket(), bind() and listen() succeed | start at the head of the list, `p = listp`, as `open_cliendfd` does at line 73 | high; not executed | Connect.OpenListenFd, Connect.ListenSkipsUsableCandidate | Connect.OpenListenFdFixed |

=== FILE: common.dfy ===
/** Constants and the byte type shared by the robust-I/O layer and the
    socket helpers (web-server/common.h). */
module Common {

  /** A C `char` as it travels through read(2): one octet. */
  newtype byte = b: int | 0 <= b < 256

  /** The line terminator the line reader stops after. */
  const Newline: byte := 10

  /** The terminator the line reader writes after the last stored byte. */
  const Nul: byte := 0

  /** Backlog passed to listen(). */
  const ListenQueue: nat := 1024

  /** Maximum text line length the callers use as `maxlen`. */
  const MaxLine: nat := 8192

  /** Capacity of the buffered reader's internal buffer. */
  const RioBufSize: nat := 8192

  /** Concatenation regroups freely. Calling this names the one regrouping
      a proof needs, which is cheaper for the solver than finding it. */
  lemma ConcatAssoc<T>(a: seq<T>, b: seq<T>, c: seq<T>)
    ensures (a + b) + c == a + (b + c)
  {
  }

  function Min(a: int, b: int): (m: int)
    ensures m <= a && m <= b && (m == a || m == b)
  {
    if a < b then a else b
  }
}

=== FILE: connect.dfy ===
/** The candidate walk of open_cliendfd and open_listenfd
    (web-server/main.c; the same code is repeated in web-server/common.c):
    try the entries getaddrinfo returned in list order and keep the first
    whose socket() and connect() (client) or bind() (server) succeed. */
module Connect {
  import opened Common

  /** One entry of the address list, reduced to what the walk observes: the
      value socket() returns for it (negative on failure) and whether
      connect() or bind() on that socket succeeds. */
  datatype Candidate = Candidate(sock: int, links: bool)

  predicate Usable(c: Candidate)
  {
    c.sock >= 0 && c.links
  }

  /** The calls the walk makes, each naming the list entry it is about. */
  datatype Step =
    | Socket(i: nat)                 // socket() for entry i
    | Reuse(i: nat)                  // setsockopt(SO_REUSEADDR) on it (server only)
    | Link(i: nat)                   // connect() or bind() on it
    | Close(i: nat)                  // Close() of its socket
    | Listen(i: nat, backlog: nat)   // listen() on it
    | FreeList                       // Freeaddrinfo() of the whole list

  /** The entry the loop stopped at (-1 when it ran off the end of the list,
      i.e. p is NULL) and the calls it made. */
  datatype Walk = Walk(entry: int, trace: seq<Step>)

  /** What an open_* helper ends with: its return value, the entry p points
      at, the calls of the walk, and the calls made after it. */
  datatype Opened = Opened(fd: int, entry: int, walk: seq<Step>, after: seq<Step>)

  predicate WalkStep(st: Step)
  {
    st.Socket? || st.Reuse? || st.Link? || st.Close?
  }

  /** Number of entries the walk reaches: up to and including the one it
      stops at, or all of them. */
  function Tried(entry: int, n: nat): nat
  {
    if entry < 0 then n else entry + 1
  }

  /** The calls go through the list front to back. */
  predicate InOrder(t: seq<Step>)
  {
    forall a, b :: 0 <= a < b < |t| && WalkStep(t[a]) && WalkStep(t[b]) ==> t[a].i <= t[b].i
  }

  /** The calls one pass of the loop body makes for entry `i`: socket(),
      and if that succeeds setsockopt() (server only) and connect() or
      bind(), then Close() if that fails. */
  function Attempt(c: Candidate, i: nat, server: bool): (t: seq<Step>)
    ensures forall k :: 0 <= k < |t| ==> WalkStep(t[k]) && t[k].i == i
    ensures Socket(i) in t
    ensures Link(i) in t <==> c.sock >= 0
    ensures Reuse(i) in t <==> server && c.sock >= 0
    ensures Close(i) in t <==> c.sock >= 0 && !c.links
    // socket() comes first, setsockopt() right after it, connect() or bind()
    // next, and Close() last
    ensures t[0] == Socket(i)
    ensures server && c.sock >= 0 ==> t[1] == Reuse(i)
    ensures c.sock >= 0 ==> t[|t| - (if c.links then 1 else 2)] == Link(i)
    ensures Close(i) in t ==> t[|t| - 1] == Close(i)
    // each of these calls is made once
    ensures |t| == if c.sock < 0 then 1 else (if server then 3 else 2) + (if c.links then 0 else 1)
  {
    if c.sock < 0 then [Socket(i)]
    else
      var made := [Socket(i)] + (if server then [Reuse(i)] else []) + [Link(i)];
      if c.links then made else made + [Close(i)]
  }

  /** The loop `for (p = ...; p; p = p->ai_next)` from entry `i` on: it
      stops at the first usable entry, or runs off the end of the list. */
  function WalkFrom(cands: seq<Candidate>, i: nat, server: bool): (w: Walk)
    requires i <= |cands|
    ensures w.entry == -1 || i <= w.entry < |cands|
    decreases |cands| - i
  {
    if i == |cands| then Walk(-1, [])
    else if Usable(cands[i]) then Walk(i, Attempt(cands[i], i, server))
    else
      var w := WalkFrom(cands, i + 1, server);
      Walk(w.entry, Attempt(cands[i], i, server) + w.trace)
  }

  /** The walk stops at the first usable entry from `i` on, or at none if
      there is none. */
  lemma {:induction false} WalkStops(cands: seq<Candidate>, i: nat, server: bool)
    requires i <= |cands|
    ensures WalkFrom(cands, i, server).entry >= 0 ==> Usable(cands[WalkFrom(cands, i, server).entry])
    ensures forall j :: i <= j < Tried(WalkFrom(cands, i, server).entry, |cands|) && j != WalkFrom(cands, i, server).entry ==>
              !Usable(cands[j])
    decreases |cands| - i
  {
    if i < |cands| && !Usable(cands[i]) {
      WalkStops(cands, i + 1, server);
    }
  }

  /** The walk makes calls only about the entries it reaches, front to back. */
  lemma {:induction false} WalkInOrder(cands: seq<Candidate>, i: nat, server: bool)
    requires i <= |cands|
    ensures forall k :: 0 <= k < |WalkFrom(cands, i, server).trace| ==>
              WalkStep(WalkFrom(cands, i, server).trace[k]) &&
              i <= WalkFrom(cands, i, server).trace[k].i < Tried(WalkFrom(cands, i, server).entry, |cands|)
    ensures InOrder(WalkFrom(cands, i, server).trace)
    decreases |cands| - i
  {
    if i < |cands| && !Usable(cands[i]) {
      WalkInOrder(cands, i + 1, server);
      AppendInOrder(Attempt(cands[i], i, server), WalkFrom(cands, i + 1, server).trace, i);
    }
  }

  /** Calls about entry `i` followed by ordered calls about later entries
      are ordered. */
  lemma AppendInOrder(a: seq<Step>, t: seq<Step>, i: nat)
    requires forall k :: 0 <= k < |a| ==> WalkStep(a[k]) && a[k].i == i
    requires forall k :: 0 <= k < |t| ==> WalkStep(t[k]) && i < t[k].i
    requires InOrder(t)
    ensures forall k :: 0 <= k < |a + t| ==> WalkStep((a + t)[k]) && i <= (a + t)[k].i
    ensures InOrder(a + t)
  {
    assert forall k :: |a| <= k < |a + t| ==> (a + t)[k] == t[k - |a|];
  }

  /** The walk calls socket() for every entry it reaches and no other. */
  lemma {:induction false} WalkSockets(cands: seq<Candidate>, i: nat, server: bool)
    requires i <= |cands|
    ensures forall j: nat :: Socket(j) in WalkFrom(cands, i, server).trace <==>
              i <= j < Tried(WalkFrom(cands, i, server).entry, |cands|)
    decreases |cands| - i
  {
    if i < |cands| && !Usable(cands[i]) {
      WalkSockets(cands, i + 1, server);
    }
  }

  /** The walk calls connect() or bind() for every entry it reaches whose
      socket() succeeded, and no other. */
  lemma {:induction false} WalkLinks(cands: seq<Candidate>, i: nat, server: bool)
    requires i <= |cands|
    ensures forall j: nat :: Link(j) in WalkFrom(cands, i, server).trace <==>
              i <= j < Tried(WalkFrom(cands, i, server).entry, |cands|) && cands[j].sock >= 0
    decreases |cands| - i
  {
    if i < |cands| && !Usable(cands[i]) {
      WalkLinks(cands, i + 1, server);
    }
  }

  /** Only the server side calls setsockopt(), for every entry it reaches
      whose socket() succeeded. */
  lemma {:induction false} WalkReuses(cands: seq<Candidate>, i: nat, server: bool)
    requires i <= |cands|
    ensures forall j: nat :: Reuse(j) in WalkFrom(cands, i, server).trace <==>
              server && i <= j < Tried(WalkFrom(cands, i, server).entry, |cands|) && cands[j].sock >= 0
    decreases |cands| - i
  {
    if i < |cands| && !Usable(cands[i]) {
      var a := Attempt(cands[i], i, server);
      var w := WalkFrom(cands, i + 1, server);
      assert WalkFrom(cands, i, server) == Walk(w.entry, a + w.trace);
      WalkReuses(cands, i + 1, server);
      AttemptReuses(cands[i], i, server);
      assert forall j: nat :: Reuse(j) in a + w.trace <==> Reuse(j) in a || Reuse(j) in w.trace;
    }
  }

  /** One pass calls setsockopt() for its own entry only. */
  lemma AttemptReuses(c: Candidate, i: nat, server: bool)
    ensures forall j: nat :: Reuse(j) in Attempt(c, i, server) <==> j == i && server && c.sock >= 0
  {
  }

  /** The walk closes every socket it opened for an entry it moved past, and
      no other. */
  lemma {:induction false} WalkCloses(cands: seq<Candidate>, i: nat, server: bool)
    requires i <= |cands|
    ensures forall j: nat :: Close(j) in WalkFrom(cands, i, server).trace <==>
              i <= j < Tried(WalkFrom(cands, i, server).entry, |cands|) && cands[j].sock >= 0 &&
              j != WalkFrom(cands, i, server).entry
    decreases |cands| - i
  {
    if i < |cands| && !Usable(cands[i]) {
      WalkCloses(cands, i + 1, server);
    }
  }

  /** open_cliendfd(hostname, port) over the list getaddrinfo returned. */
  function OpenClientFd(cands: seq<Candidate>): (r: Opened)
    ensures r.fd == -1 <==> r.entry == -1
    ensures r.entry == -1 <==> forall j :: 0 <= j < |cands| ==> !Usable(cands[j])
    ensures r.entry >= 0 ==> r.entry < |cands| && Usable(cands[r.entry]) && r.fd == cands[r.entry].sock
    ensures r.entry >= 0 ==> forall j :: 0 <= j < r.entry ==> !Usable(cands[j])
    ensures forall k :: 0 <= k < |r.walk| ==> WalkStep(r.walk[k]) && !r.walk[k].Reuse?
    ensures InOrder(r.walk)
    ensures forall j: nat :: Socket(j) in r.walk <==> j < Tried(r.entry, |cands|)
    ensures forall j: nat :: Link(j) in r.walk <==> j < Tried(r.entry, |cands|) && cands[j].sock >= 0
    ensures forall j: nat :: Close(j) in r.walk <==> j < Tried(r.entry, |cands|) && cands[j].sock >= 0 && j != r.entry
    ensures r.after == [FreeList]
  {
    WalkStops(cands, 0, false);
    WalkInOrder(cands, 0, false);
    WalkSockets(cands, 0, false);
    WalkLinks(cands, 0, false);
    WalkReuses(cands, 0, false);
    WalkCloses(cands, 0, false);
    var w := WalkFrom(cands, 0, false);
    if w.entry == -1 then Opened(-1, -1, w.trace, [FreeList])
    else Opened(cands[w.entry].sock, w.entry, w.trace, [FreeList])
  }

  /** What open_listenfd does once the loop is over: free the list, give up
      if no entry was bound, else listen, closing the socket if that fails. */
  function ListenTail(cands: seq<Candidate>, w: Walk, listens: bool): (r: Opened)
    requires w.entry == -1 || (0 <= w.entry < |cands| && cands[w.entry].sock >= 0)
    ensures r.entry == w.entry && r.walk == w.trace
    ensures r.fd != -1 <==> w.entry >= 0 && listens
    ensures r.fd != -1 ==> r.fd == cands[w.entry].sock
    ensures |r.after| > 0 && r.after[0] == FreeList && FreeList !in r.after[1..]
    ensures forall j: nat, b: nat :: Listen(j, b) in r.after <==> j == w.entry && b == ListenQueue
    ensures forall j: nat :: Close(j) in r.after <==> j == w.entry && !listens
    ensures forall st :: st in r.after ==> st.FreeList? || st.Listen? || st.Close?
    // listen() once, right after the free, and Close() only after it
    ensures w.entry >= 0 ==> |r.after| == (if listens then 2 else 3) && r.after[1] == Listen(w.entry, ListenQueue)
  {
    if w.entry == -1 then Opened(-1, -1, w.trace, [FreeList])
    else if !listens then Opened(-1, w.entry, w.trace, [FreeList, Listen(w.entry, ListenQueue), Close(w.entry)])
    else Opened(cands[w.entry].sock, w.entry, w.trace, [FreeList, Listen(w.entry, ListenQueue)])
  }

  /** open_listenfd(port) as written: the loop starts at p = 0, the null
      pointer, so it walks no entry at all and the helper always fails. */
  function OpenListenFd(cands: seq<Candidate>, listens: bool): (r: Opened)
    ensures r.fd == -1 && r.entry == -1
    ensures r.walk == [] && r.after == [FreeList]
  {
    ListenTail(cands, WalkFrom([], 0, true), listens)
  }

  /** open_listenfd(port) with the loop starting at the head of the list. */
  function OpenListenFdFixed(cands: seq<Candidate>, listens: bool): (r: Opened)
    ensures r.entry == -1 <==> forall j :: 0 <= j < |cands| ==> !Usable(cands[j])
    ensures r.entry >= 0 ==> r.entry < |cands| && Usable(cands[r.entry])
    ensures r.entry >= 0 ==> forall j :: 0 <= j < r.entry ==> !Usable(cands[j])
    ensures r.fd != -1 <==> r.entry >= 0 && listens
    ensures r.fd != -1 ==> r.fd == cands[r.entry].sock
    ensures forall k :: 0 <= k < |r.walk| ==> WalkStep(r.walk[k])
    ensures InOrder(r.walk)
    ensures forall j: nat :: Socket(j) in r.walk <==> j < Tried(r.entry, |cands|)
    ensures forall j: nat :: Link(j) in r.walk <==> j < Tried(r.entry, |cands|) && cands[j].sock >= 0
    ensures forall j: nat :: Reuse(j) in r.walk <==> j < Tried(r.entry, |cands|) && cands[j].sock >= 0
    ensures forall j: nat :: Close(j) in r.walk <==> j < Tried(r.entry, |cands|) && cands[j].sock >= 0 && j != r.entry
    ensures |r.after| > 0 && r.after[0] == FreeList && FreeList !in r.after[1..]
    ensures forall j: nat, b: nat :: Listen(j, b) in r.after <==> j == r.entry && b == ListenQueue
    // every socket the helper opened is closed unless it is the one returned
    ensures forall j :: 0 <= j < |cands| && Socket(j) in r.walk && cands[j].sock >= 0 ==>
              (Close(j) in r.walk + r.after <==> r.fd == -1 || j != r.entry)
  {
    WalkStops(cands, 0, true);
    WalkInOrder(cands, 0, true);
    WalkSockets(cands, 0, true);
    WalkLinks(cands, 0, true);
    WalkReuses(cands, 0, true);
    WalkCloses(cands, 0, true);
    ListenTail(cands, WalkFrom(cands, 0, true), listens)
  }

  /** The defect of open_listenfd as written: with a first entry that binds
      and listens, the corrected walk returns that entry's socket while the
      code as written returns -1 without ever calling socket(). */
  lemma ListenSkipsUsableCandidate(fd: nat)
    ensures OpenListenFd([Candidate(fd, true)], true).fd == -1
    ensures OpenListenFdFixed([Candidate(fd, true)], true).fd == fd
    ensures Socket(0) !in OpenListenFd([Candidate(fd, true)], true).walk
  {
    WalkStops([Candidate(fd, true)], 0, true);
    assert WalkFrom([Candidate(fd, true)], 0, true).entry == 0;
  }

  /** The corrected open_listenfd binds the same entry open_cliendfd would
      connect, given the same outcomes per entry. */
  lemma ListenAndClientAgree(cands: seq<Candidate>, listens: bool)
    ensures OpenListenFdFixed(cands, listens).entry == OpenClientFd(cands).entry
  {
  }
}

=== FILE: rio_buffered.dfy ===
/** The buffered reader: the rio_t record (web-server/common.h) and
    rio_read, rio_readinitb and rio_readnb (web-server/common.c). */
module RioBuffered {
  import opened Common
  import opened Transport
  import RioUnbuffered

  /** rio_t: the descriptor, the count of unread bytes, the offset of the
      next unread byte (rio_bufptr - rio_buf) and the internal buffer. The
      count is -1 right after a refill that failed, because rio_read stores
      read()'s return value in it. */
  datatype Rio = Rio(fd: int, cnt: int, bufptr: nat, buf: seq<byte>)
  {
    /** The buffer has its fixed capacity and the unread region
        [bufptr, bufptr + cnt) lies inside it. */
    predicate Valid()
    {
      |buf| == RioBufSize && -1 <= cnt && bufptr + (if cnt > 0 then cnt else 0) <= RioBufSize
    }

    /** The bytes already read from the descriptor but not yet handed out. */
    function Unread(): (u: seq<byte>)
      requires Valid()
      ensures |u| <= RioBufSize
      ensures cnt > 0 ==> |u| == cnt
    {
      if cnt > 0 then buf[bufptr..bufptr + cnt] else []
    }
  }

  /** Everything a reader can still hand out: its unread bytes, then the
      descriptor's stream. */
  function Pending(rio: Rio, s: Script): seq<byte>
    requires rio.Valid()
  {
    rio.Unread() + Stream(s)
  }

  /** What a buffered read hands back: its return value, the bytes it stored
      at the front of the caller's buffer, the reader afterwards and the
      script left for later reads. */
  datatype Reply = Reply(ret: int, out: seq<byte>, rio: Rio, rest: Script)

  /** rio_readinitb(rp, fd): binds the reader to `fd` with an empty buffer.
      The buffer's old contents stay, as in the C record. */
  function ReadInitB(rio: Rio, fd: int): (r: Rio)
    requires |rio.buf| == RioBufSize
    ensures r.Valid() && r.fd == fd
    ensures r.Unread() == [] && r.cnt == 0 && r.bufptr == 0 && r.buf == rio.buf
  {
    rio.(fd := fd, cnt := 0, bufptr := 0)
  }

  /** The refill loop at the head of rio_read: while the buffer is empty,
      read() up to RioBufSize bytes into it, retrying after an interruption.
      It leaves the count at -1 after an error, at 0 at end of file, and
      otherwise positive with the unread region at the buffer's start. */
  function Refill(rio: Rio, s: Script): (r: (Rio, Script))
    requires rio.Valid()
    ensures r.0.Valid() && r.0.fd == rio.fd && Weight(r.1) <= Weight(s)
    ensures rio.cnt > 0 ==> r == (rio, s)
    ensures r.0.cnt == -1 <==> rio.Unread() == [] && Stream(s) == [] && HitsFail(s)
    ensures r.0.cnt == 0 <==> rio.Unread() == [] && Stream(s) == [] && !HitsFail(s)
    ensures r.0.cnt >= 0 ==> Pending(r.0, r.1) == Pending(rio, s) && HitsFail(r.1) == HitsFail(s)
    ensures rio.cnt <= 0 && r.0.cnt > 0 ==> r.0.bufptr == 0
    // one read() filled the buffer: the first chunk not interrupted
    ensures rio.cnt <= 0 && r.0.cnt > 0 ==> r.0.Unread() == NextChunk(s, RioBufSize) && r.1 == AfterChunk(s, RioBufSize)
    decreases Weight(s)
  {
    if rio.cnt > 0 then (rio, s)
    else
      var (got, s') := Read(s, RioBufSize);
      match got
      case Failed => (rio.(cnt := -1), s')
      case Interrupted => Refill(rio.(cnt := -1), s')
      case EndOfFile => (rio.(cnt := 0), s')
      case Got(d) =>
        // the loop test fails on the next round: the count is now positive
        var filled := rio.(cnt := |d|, bufptr := 0, buf := d + rio.buf[|d|..]);
        assert filled.Unread() == d;
        (filled, s')
  }

  /** The copy at the tail of rio_read: hand out min(n, cnt) bytes from the
      front of the unread region and advance past them. */
  function Serve(rio: Rio, s: Script, n: nat): (r: Reply)
    requires rio.Valid() && rio.cnt > 0
    ensures r.rio.Valid() && r.rio.fd == rio.fd && r.rest == s
    ensures r.ret == Min(n, rio.cnt) && r.out == rio.Unread()[..r.ret] && r.rio.cnt >= 0
    ensures r.out + r.rio.Unread() == rio.Unread()
    ensures r.rio.buf == rio.buf && r.rio.bufptr == rio.bufptr + r.ret && r.rio.bufptr + r.rio.cnt == rio.bufptr + rio.cnt
  {
    var cnt := if rio.cnt < n then rio.cnt else n;
    var served := rio.(bufptr := rio.bufptr + cnt, cnt := rio.cnt - cnt);
    assert rio.Unread() == rio.buf[rio.bufptr..rio.bufptr + cnt] + served.Unread();
    Reply(cnt, rio.buf[rio.bufptr..rio.bufptr + cnt], served, s)
  }

  /** Serving moves bytes from the reader to the caller: nothing is lost,
      and with room for one byte at least one is handed out. */
  lemma ServeKeepsPending(rio: Rio, s: Script, n: nat)
    requires rio.Valid() && rio.cnt > 0
    ensures Serve(rio, s, n).out + Pending(Serve(rio, s, n).rio, s) == Pending(rio, s)
    ensures n > 0 ==> Serve(rio, s, n).ret > 0
  {
  }

  /** rio_read(rp, usrbuf, n): refill the buffer if it is empty; return -1
      after an error and 0 at end of file; otherwise hand out min(n, cnt)
      buffered bytes. */
  function RioRead(rio: Rio, s: Script, n: nat): (r: Reply)
    requires rio.Valid()
    ensures r.rio.Valid() && r.rio.fd == rio.fd
    ensures Weight(r.rest) <= Weight(s)
    ensures -1 <= r.ret <= n
    ensures r.ret == -1 <==> rio.Unread() == [] && Stream(s) == [] && HitsFail(s)
    ensures r.ret == -1 ==> r.out == [] && r.rio.cnt == -1
    ensures r.ret >= 0 ==> |r.out| == r.ret && r.rio.cnt >= 0
    ensures r.ret >= 0 ==> r.out + Pending(r.rio, r.rest) == Pending(rio, s) && HitsFail(r.rest) == HitsFail(s)
    ensures n > 0 ==> (r.ret == 0 <==> Pending(rio, s) == [] && !HitsFail(s))
    // bytes already buffered are served without touching the descriptor
    ensures rio.cnt > 0 ==> r.rest == s && r.ret == Min(n, rio.cnt) && r.out == rio.Unread()[..r.ret]
    ensures rio.cnt > 0 ==> r.rio.buf == rio.buf && r.rio.bufptr + r.rio.cnt == rio.bufptr + rio.cnt
    // a successful refill restarts the unread region at the buffer's start
    ensures rio.cnt <= 0 && r.ret > 0 ==> r.rio.bufptr == r.ret && r.ret <= r.rio.bufptr + r.rio.cnt <= RioBufSize
    // and hands out min(n, the count the refill read)
    ensures rio.cnt <= 0 && r.ret > 0 ==> r.ret == Min(n, r.rio.bufptr + r.rio.cnt)
    // which is what that one read() returned
    ensures rio.cnt <= 0 && r.ret > 0 ==>
              r.ret == Min(n, |NextChunk(s, RioBufSize)|) && r.out == NextChunk(s, RioBufSize)[..r.ret]
    // and keeps the rest of that chunk buffered
    ensures rio.cnt <= 0 && r.ret > 0 ==>
              r.out + r.rio.Unread() == NextChunk(s, RioBufSize) && r.rest == AfterChunk(s, RioBufSize)
  {
    var (filled, rest) := Refill(rio, s);
    if filled.cnt < 0 then Reply(-1, [], filled, rest)
    else if filled.cnt == 0 then Reply(0, [], filled, rest)
    else
      var r := Serve(filled, rest, n);
      ServeKeepsPending(filled, rest, n);
      r
  }

  /** The loop of rio_readnb with `nleft` bytes still wanted and `done`
      already stored. */
  function ReadNBLoop(rio: Rio, s: Script, n: nat, nleft: nat, done: seq<byte>): (r: Reply)
    requires rio.Valid() && |done| + nleft == n
    ensures r.rio.Valid() && r.rio.fd == rio.fd
    ensures ReadNOutcome(n, done + Pending(rio, s), HitsFail(s), r.ret, r.out)
    ensures r.ret >= 0 ==> done + Pending(rio, s) == r.out + Pending(r.rio, r.rest) && HitsFail(r.rest) == HitsFail(s)
    ensures r.ret == -1 ==> r.rio.cnt == -1
    decreases |Pending(rio, s)|
  {
    if nleft == 0 then
      assert (done + Pending(rio, s))[..n] == done;
      Reply(n - nleft, done, rio, s)
    else
      var step := RioRead(rio, s, nleft);
      if step.ret < 0 then
        assert Pending(rio, s) == [] && done + Pending(rio, s) == done;
        Reply(-1, done, step.rio, step.rest)
      else if step.ret == 0 then
        assert Pending(rio, s) == [] && done + Pending(rio, s) == done;
        Reply(n - nleft, done, step.rio, step.rest)
      else
        var more := ReadNBLoop(step.rio, step.rest, n, nleft - step.ret, done + step.out);
        ConcatAssoc(done, step.out, Pending(step.rio, step.rest));
        more
  }

  /** rio_readnb(rp, usrbuf, n): the read-n contract of rio_readn, over the
      reader's unread bytes followed by the descriptor's stream. */
  function ReadNB(rio: Rio, s: Script, n: nat): (r: Reply)
    requires rio.Valid()
    ensures r.rio.Valid() && r.rio.fd == rio.fd
    ensures ReadNOutcome(n, Pending(rio, s), HitsFail(s), r.ret, r.out)
    ensures -1 <= r.ret <= n
    ensures r.ret >= 0 ==> Pending(rio, s) == r.out + Pending(r.rio, r.rest) && HitsFail(r.rest) == HitsFail(s)
    ensures r.ret == -1 ==> r.rio.cnt == -1
    ensures n == 0 ==> r == Reply(0, [], rio, s)
  {
    var r := ReadNBLoop(rio, s, n, n, []);
    assert [] + Pending(rio, s) == Pending(rio, s);
    ReadNOutcomeBounds(n, Pending(rio, s), HitsFail(s), r.ret, r.out);
    r
  }

  /** A freshly initialised reader hands out exactly the descriptor's stream. */
  lemma InitBExposesStream(rio: Rio, fd: int, s: Script)
    requires |rio.buf| == RioBufSize
    ensures Pending(ReadInitB(rio, fd), s) == Stream(s)
  {
  }

  /** Buffering changes nothing a caller of read-n can see: rio_readnb on a
      fresh reader gives the count and bytes rio_readn gives on the bare
      descriptor. */
  lemma ReadNBMatchesReadN(rio: Rio, fd: int, s: Script, n: nat)
    requires |rio.buf| == RioBufSize
    ensures ReadNB(ReadInitB(rio, fd), s, n).ret == RioUnbuffered.ReadN(s, n).ret
    ensures ReadNB(ReadInitB(rio, fd), s, n).out == RioUnbuffered.ReadN(s, n).out
  {
  }

  /** The reader's unread bytes `u` and the script `s` once `m` more bytes
      have been handed out through rio_read: bytes come from the buffer
      while it holds any, and only an empty buffer is refilled, by one
      read() of up to RioBufSize bytes. It stops early when no byte is
      left to hand out. */
  function Drain(u: seq<byte>, s: Script, m: nat): (seq<byte>, Script)
    decreases m
  {
    if m == 0 then (u, s)
    else if u != [] then Drain(u[1..], s, m - 1)
    else if NextChunk(s, RioBufSize) == [] then (u, s)
    else Drain(NextChunk(s, RioBufSize)[1..], AfterChunk(s, RioBufSize), m - 1)
  }

  /** Handing out one more byte continues from where `m` bytes left off. */
  lemma {:induction false} DrainOneMore(u: seq<byte>, s: Script, m: nat)
    ensures Drain(u, s, m + 1) == Drain(Drain(u, s, m).0, Drain(u, s, m).1, 1)
    decreases m
  {
    if m > 0 {
      if u != [] {
        DrainOneMore(u[1..], s, m - 1);
      } else if NextChunk(s, RioBufSize) != [] {
        DrainOneMore(NextChunk(s, RioBufSize)[1..], AfterChunk(s, RioBufSize), m - 1);
      }
    }
  }

  /** While the buffer holds the bytes asked for, the descriptor is not
      touched and the buffer keeps the rest. */
  lemma {:induction false} DrainBuffered(u: seq<byte>, s: Script, m: nat)
    requires m <= |u|
    ensures Drain(u, s, m) == (u[m..], s)
    decreases m
  {
    if m > 0 {
      DrainBuffered(u[1..], s, m - 1);
      assert u[1..][m - 1..] == u[m..];
    }
  }

  /** Dropping `m` bytes drops the first one and then `m - 1` more. */
  lemma DropFirst(x: byte, y: seq<byte>, m: nat)
    requires 0 < m <= |y| + 1
    ensures ([x] + y)[m..] == y[m - 1..]
  {
  }

  /** Draining loses no byte: what the reader can still hand out afterwards
      is what it could before, less the `m` bytes handed out. */
  lemma {:induction false} DrainKeepsPending(u: seq<byte>, s: Script, m: nat)
    requires m <= |u + Stream(s)|
    ensures Drain(u, s, m).0 + Stream(Drain(u, s, m).1) == (u + Stream(s))[m..]
    decreases m
  {
    if m > 0 {
      if u != [] {
        var rest := u[1..] + Stream(s);
        assert u + Stream(s) == [u[0]] + rest;
        DrainKeepsPending(u[1..], s, m - 1);
        DropFirst(u[0], rest, m);
      } else {
        var c := NextChunk(s, RioBufSize);
        var t := AfterChunk(s, RioBufSize);
        NextChunkStartsStream(s, RioBufSize);
        var rest := c[1..] + Stream(t);
        assert u + Stream(s) == [c[0]] + rest;
        DrainKeepsPending(c[1..], t, m - 1);
        DropFirst(c[0], rest, m);
      }
    }
  }

  /** Draining does not change how the descriptor ends. */
  lemma {:induction false} DrainKeepsEnding(u: seq<byte>, s: Script, m: nat)
    ensures HitsFail(Drain(u, s, m).1) == HitsFail(s)
    decreases m
  {
    if m > 0 {
      if u != [] {
        DrainKeepsEnding(u[1..], s, m - 1);
      } else if NextChunk(s, RioBufSize) != [] {
        NextChunkStartsStream(s, RioBufSize);
        DrainKeepsEnding(NextChunk(s, RioBufSize)[1..], AfterChunk(s, RioBufSize), m - 1);
      }
    }
  }

  /** With "a\nb" coming on an empty buffer, handing out "a\n" leaves "b"
      in the buffer and nothing for the descriptor to deliver. */
  lemma DrainKeepsTailBuffered()
    ensures Drain([], [Data([97, 10, 98])], 2) == ([98], [])
  {
    var s: Script := [Data([97, 10, 98])];
    var c: seq<byte> := [97, 10, 98];
    assert NextChunk(s, RioBufSize) == c;
    assert AfterChunk(s, RioBufSize) == [];
    assert c[1..][1..] == [98];
  }

  /** rio_read follows that discipline: after it hands out `ret` bytes,
      the reader and the descriptor are where draining that many leaves
      them. */
  lemma RioReadDrains(rio: Rio, s: Script, n: nat)
    requires rio.Valid()
    ensures var r := RioRead(rio, s, n);
      r.ret > 0 ==> (r.rio.Unread(), r.rest) == Drain(rio.Unread(), s, r.ret)
  {
    var r := RioRead(rio, s, n);
    if r.ret > 0 {
      if rio.cnt > 0 {
        DrainBuffered(rio.Unread(), s, r.ret);
        assert r.out + r.rio.Unread() == rio.Unread();
        assert r.rio.Unread() == rio.Unread()[r.ret..];
      } else {
        var c := NextChunk(s, RioBufSize);
        assert r.out + r.rio.Unread() == c;
        DrainBuffered(c[1..], AfterChunk(s, RioBufSize), r.ret - 1);
        assert c[1..][r.ret - 1..] == r.rio.Unread();
      }
    }
  }

  /** A refill is one read(): with an empty buffer and two chunks coming,
      rio_read hands out the first chunk only, even when both would fit. */
  lemma RefillReadsOneChunk(rio: Rio, a: Chunk, b: Chunk, s: Script, n: nat)
    requires rio.Valid() && rio.cnt <= 0 && |a| <= RioBufSize && |a| <= n
    ensures RioRead(rio, [Data(a), Data(b)] + s, n).ret == |a|
    ensures RioRead(rio, [Data(a), Data(b)] + s, n).out == a
  {
    var t := [Data(a), Data(b)] + s;
    assert NextChunk(t, RioBufSize) == a;
    assert Stream(t) != [];
  }

  /** An interrupted refill is retried with nothing changed: the count it
      leaves at -1 is overwritten by the next read. */
  lemma RioReadIgnoresInterrupts(rio: Rio, s: Script, n: nat)
    requires rio.Valid() && rio.cnt <= 0
    ensures RioRead(rio, [Intr] + s, n) == RioRead(rio, s, n)
  {
    assert ([Intr] + s)[1..] == s;
    assert Refill(rio.(cnt := -1), s) == Refill(rio, s);
  }
}

=== FILE: rio_line.dfy ===
/** rio_readlineb: the buffered line reader (web-server/common.c). */
module RioLine {
  import opened Common
  import opened Transport
  import opened RioBuffered

  /** Whether a line of `l` taken with room for `room` bytes is finished
      without looking further: it fills the room or ends in a newline. */
  predicate Ended(l: seq<byte>, room: nat)
  {
    |l| == room || (|l| > 0 && l[|l| - 1] == Newline)
  }

  /** The line taken from the front of `p` with room for `room` bytes:
      the bytes up to and including the first newline, cut at `room` bytes,
      or all of `p` when it ends first. */
  function Line(p: seq<byte>, room: nat): (l: seq<byte>)
    ensures |l| <= room && |l| <= |p| && l == p[..|l|]
    ensures forall i :: 0 <= i < |l| - 1 ==> l[i] != Newline
    ensures Ended(l, room) || l == p
    decreases room
  {
    if room == 0 || p == [] then []
    else if p[0] == Newline then [p[0]]
    else [p[0]] + Line(p[1..], room - 1)
  }

  /** The room a caller's buffer of `maxlen` bytes leaves before the NUL.
      The loop of rio_readlineb does not run for `maxlen` 0 or 1. */
  function Room(maxlen: nat): nat
  {
    if maxlen == 0 then 0 else maxlen - 1
  }

  /** What rio_readlineb is to produce: its return value, the bytes it
      stores at the front of the caller's buffer, and the bytes it leaves
      with the reader when it does not fail. */
  datatype Expected = Expected(ret: int, out: seq<byte>, left: seq<byte>)

  /** The record rio_readlineb produces when the reader can hand out `p`
      and the descriptor then ends with an error (`fails`) or end of file:
      - the line ends within `p`: it is stored, NUL-terminated, and its
        count returned; the bytes after it stay with the reader;
      - otherwise all of `p` is consumed and the next read decides: an error
        gives -1 with no NUL; end of file gives 0 with nothing stored if no
        byte was read at all, else the partial line, NUL-terminated. */
  function LineRecord(p: seq<byte>, maxlen: nat, fails: bool): Expected
  {
    var room := Room(maxlen);
    var l := Line(p, room);
    if Ended(l, room) then Expected(|l|, l + [Nul], p[|l|..])
    else if fails then Expected(-1, l, [])
    else if l == [] then Expected(0, [], [])
    else Expected(|l|, l + [Nul], [])
  }

  /** A reply meets an expected record: same count and stored bytes; after
      a failure the reader holds the failed refill's count -1, otherwise it
      still holds the expected bytes and the descriptor ends as before. */
  predicate Meets(r: Reply, e: Expected, fails: bool)
  {
    && r.rio.Valid() && r.ret == e.ret && r.out == e.out
    && if e.ret == -1 then r.rio.cnt == -1
       else Pending(r.rio, r.rest) == e.left && HitsFail(r.rest) == fails
  }

  /** Line is the only prefix that is within the room, holds no newline
      before its last byte, and is finished or takes all of `p`. */
  lemma {:induction false} LineIsUnique(p: seq<byte>, room: nat, l: seq<byte>)
    requires |l| <= room && |l| <= |p| && l == p[..|l|]
    requires forall i :: 0 <= i < |l| - 1 ==> l[i] != Newline
    requires Ended(l, room) || l == p
    ensures l == Line(p, room)
    decreases room
  {
    if room > 0 && p != [] {
      assert l != [];
      assert l[0] == p[0];
      if p[0] != Newline {
        var l' := l[1..];
        assert l == [p[0]] + l';
        assert l' == p[1..][..|l'|];
        assert Ended(l', room - 1) || l' == p[1..];
        LineIsUnique(p[1..], room - 1, l');
      }
    }
  }

  /** The bounds of every reply: the count is -1 or at most the room, and
      after a non-negative count the buffer holds the count's bytes, taken
      from the front of what was pending, then a NUL, unless nothing was
      stored at all; what is left is the rest of what was pending. */
  lemma ReadLineBounds(p: seq<byte>, maxlen: nat, fails: bool)
    ensures var e := LineRecord(p, maxlen, fails);
      && -1 <= e.ret <= Room(maxlen) && |e.out| <= Room(maxlen) + 1
      && (e.ret >= 0 && e.out != [] ==> |e.out| == e.ret + 1 && e.out[e.ret] == Nul)
      && (e.ret >= 0 ==> e.out[..e.ret] == p[..e.ret] && p == e.out[..e.ret] + e.left)
      && (e.ret == 0 ==> e.out == [Nul] || e.out == [])
      && (e.ret == -1 ==> fails && e.out == p && |p| < Room(maxlen))
  {
  }

  /** A caller that passes its MAXLINE-sized buffer with maxlen = MAXLINE
      never has more than MAXLINE bytes written into it, NUL included, and
      gets back at most MAXLINE - 1. */
  lemma LineFitsMaxLine(p: seq<byte>, fails: bool)
    ensures |LineRecord(p, MaxLine, fails).out| <= MaxLine
    ensures LineRecord(p, MaxLine, fails).ret < MaxLine
  {
    ReadLineBounds(p, MaxLine, fails);
  }

  /** A newline within the room ends the record: it is stored, and the
      bytes after it stay with the reader for the next call. */
  lemma ReadLineStopsAfterNewline(p: seq<byte>, maxlen: nat, fails: bool, i: nat)
    requires i < |p| && p[i] == Newline && i + 1 <= Room(maxlen)
    requires forall j :: 0 <= j < i ==> p[j] != Newline
    ensures LineRecord(p, maxlen, fails) == Expected(i + 1, p[..i + 1] + [Nul], p[i + 1..])
  {
    LineIsUnique(p, Room(maxlen), p[..i + 1]);
    assert Ended(p[..i + 1], Room(maxlen));
  }

  /** A line longer than the room is cut: exactly the room's worth of bytes
      is stored, and the rest of the line is left for the next call. */
  lemma ReadLineCutsLongLine(p: seq<byte>, maxlen: nat, fails: bool)
    requires Room(maxlen) <= |p| && forall j :: 0 <= j < Room(maxlen) ==> p[j] != Newline
    ensures LineRecord(p, maxlen, fails) == Expected(Room(maxlen), p[..Room(maxlen)] + [Nul], p[Room(maxlen)..])
  {
    LineIsUnique(p, Room(maxlen), p[..Room(maxlen)]);
  }

  /** End of file after some bytes but before a newline or the end of the
      room: the partial line is stored and NUL-terminated. */
  lemma ReadLinePartialAtEof(p: seq<byte>, maxlen: nat)
    requires 0 < |p| < Room(maxlen) && forall j :: 0 <= j < |p| ==> p[j] != Newline
    ensures LineRecord(p, maxlen, false) == Expected(|p|, p + [Nul], [])
  {
    assert p[..|p|] == p;
    LineIsUnique(p, Room(maxlen), p);
    assert !Ended(p, Room(maxlen));
  }

  /** An error before the line is finished gives -1; the bytes stored so
      far carry no NUL. */
  lemma ReadLineFails(p: seq<byte>, maxlen: nat)
    requires |p| < Room(maxlen) && forall j :: 0 <= j < |p| ==> p[j] != Newline
    ensures LineRecord(p, maxlen, true) == Expected(-1, p, [])
  {
    assert p[..|p|] == p;
    LineIsUnique(p, Room(maxlen), p);
    assert !Ended(p, Room(maxlen));
  }

  /** End of file before any byte gives 0 with nothing stored and leaves
      nothing pending, so every later call gives 0 again. */
  lemma ReadLineAtEof(maxlen: nat)
    requires maxlen >= 2
    ensures LineRecord([], maxlen, false) == Expected(0, [], [])
  {
    assert Line([], Room(maxlen)) == [];
  }
  /** An interrupted read before the line is finished changes nothing:
      the record depends only on the bytes pending and how the descriptor
      ends. */
  lemma ReadLineIgnoresInterrupts(rio: Rio, s: Script, maxlen: nat)
    requires rio.Valid()
    ensures HitsFail([Intr] + s) == HitsFail(s)
    ensures LineRecord(Pending(rio, [Intr] + s), maxlen, HitsFail([Intr] + s)) ==
            LineRecord(Pending(rio, s), maxlen, HitsFail(s))
  {
    InterruptIsTransparent(s);
  }

  /** No byte of `l` is a newline. */
  predicate NoNewline(l: seq<byte>)
  {
    forall i :: 0 <= i < |l| ==> l[i] != Newline
  }

  /** The call rio_read(rp, &c, 1) the line reader makes: one byte, or 0
      at end of file, or -1 after an error, with nothing pending in either
      of the last two cases. */
  method ReadByte(rio: Rio, s: Script) returns (r: Reply)
    requires rio.Valid()
    ensures r.rio.Valid() && r.rio.fd == rio.fd
    ensures r.ret == 1 || r.ret == 0 || r.ret == -1
    ensures r.ret == 1 ==> |r.out| == 1 && r.out + Pending(r.rio, r.rest) == Pending(rio, s)
    ensures r.ret == 1 ==> HitsFail(r.rest) == HitsFail(s)
    ensures r.ret == 0 <==> Pending(rio, s) == [] && !HitsFail(s)
    ensures r.ret == 0 ==> Pending(r.rio, r.rest) == [] && !HitsFail(r.rest)
    ensures r.ret == -1 <==> Pending(rio, s) == [] && HitsFail(s)
    ensures r.ret == -1 ==> r.rio.cnt == -1
    // a buffered byte is served without read(); an empty buffer is refilled
    // by one read() whose other bytes stay buffered
    ensures rio.cnt > 0 ==> r.ret == 1 && r.rest == s && r.rio.Unread() == rio.Unread()[1..]
    ensures rio.cnt <= 0 && r.ret == 1 ==>
              r.out + r.rio.Unread() == NextChunk(s, RioBufSize) && r.rest == AfterChunk(s, RioBufSize)
    ensures r.ret == 1 ==> (r.rio.Unread(), r.rest) == Drain(rio.Unread(), s, 1)
  {
    r := RioRead(rio, s, 1);
    RioReadDrains(rio, s, 1);
    if r.ret == 0 {
      assert r.out == [] && [] + Pending(r.rio, r.rest) == Pending(r.rio, r.rest);
    }
  }

  /** One byte handed out from the front of what is left of `p` after its
      first `k` bytes. */
  lemma TakeOne(p: seq<byte>, k: nat, line: seq<byte>, out: seq<byte>, q: seq<byte>)
    requires k <= |p| && line == p[..k] && |out| == 1 && out + q == p[k..]
    ensures k < |p| && p[k] == out[0] && q == p[k + 1..] && p[..k + 1] == line + out
  {
    assert p[k..][0] == out[0] && p[k..][1..] == q;
  }

  /** Nothing is left of `p` after its first `k` bytes. */
  lemma TakeNone(p: seq<byte>, k: nat, line: seq<byte>)
    requires k <= |p| && line == p[..k] && p[k..] == []
    ensures p == line
  {
    assert p == p[..k] + p[k..];
  }

  /** Where the loop of rio_readlineb stopped: after storing a newline,
      with the room full, after an error, or at end of file. */
  datatype Stop = AtNewline | AtRoom | AtError | AtEnd

  /** The reply of a scan that stopped at `stop`, stated over the bytes `p`
      the reader could hand out and how the descriptor ends. */
  predicate Scanned(p: seq<byte>, maxlen: nat, fails: bool, r: Reply, stop: Stop)
  {
    && r.rio.Valid()
    && (stop == AtNewline ==>
          && 0 < r.ret <= Room(maxlen) && r.ret <= |p| && NoNewline(p[..r.ret - 1]) && p[r.ret - 1] == Newline
          && r.out == p[..r.ret] + [Nul] && Pending(r.rio, r.rest) == p[r.ret..] && HitsFail(r.rest) == fails)
    && (stop == AtRoom ==>
          && r.ret == Room(maxlen) <= |p| && NoNewline(p[..r.ret])
          && r.out == p[..r.ret] + [Nul] && Pending(r.rio, r.rest) == p[r.ret..] && HitsFail(r.rest) == fails)
    && (stop == AtError ==>
          fails && |p| < Room(maxlen) && NoNewline(p) && r.ret == -1 && r.out == p && r.rio.cnt == -1)
    && (stop == AtEnd ==>
          && !fails && |p| < Room(maxlen) && NoNewline(p) && r.ret == |p|
          && r.out == (if p == [] then [] else p + [Nul]) && Pending(r.rio, r.rest) == [] && !HitsFail(r.rest))
  }

  /** The state of rio_readlineb between two bytes: the reader, the script
      left, and the bytes stored so far. */
  datatype Scan = Scan(cur: Rio, rest: Script, line: seq<byte>)

  /** The loop invariant of rio_readlineb: the bytes stored so far are the
      front of `p`, hold no newline, and the reader can hand out the rest. */
  predicate Scanning(sc: Scan, p: seq<byte>, fails: bool)
  {
    && sc.cur.Valid() && HitsFail(sc.rest) == fails && |sc.line| <= |p|
    && sc.line == p[..|sc.line|] && Pending(sc.cur, sc.rest) == p[|sc.line|..] && NoNewline(sc.line)
  }

  /** The reader and the script stand where handing out the bytes stored
      so far, starting from the unread bytes `u` and the script `s`, leaves
      them. */
  predicate Drained(sc: Scan, u: seq<byte>, s: Script)
  {
    sc.cur.Valid() && (sc.cur.Unread(), sc.rest) == Drain(u, s, |sc.line|)
  }

  /** One pass of the loop of rio_readlineb, with n = |sc.line| + 1: read one
      byte and store it; stop after a newline, an error or end of file.
      `next` matters only when the loop goes on, `r` and `stop` only when
      it is done. */
  method ScanByte(sc: Scan, maxlen: nat, ghost p: seq<byte>, ghost fails: bool, ghost u: seq<byte>, ghost s: Script)
      returns (done: bool, next: Scan, r: Reply, stop: Stop)
    requires Scanning(sc, p, fails) && |sc.line| + 1 < maxlen
    requires Drained(sc, u, s)
    ensures done ==> Scanned(p, maxlen, fails, r, stop) && r.rio.fd == sc.cur.fd
    ensures done ==> stop != AtRoom
    ensures done && stop == AtNewline ==> r.ret > 0 && (r.rio.Unread(), r.rest) == Drain(u, s, r.ret)
    ensures !done ==> Scanning(next, p, fails) && |next.line| == |sc.line| + 1 && next.cur.fd == sc.cur.fd
    ensures !done ==> Drained(next, u, s)
  {
    var n := |sc.line| + 1;
    var step := ReadByte(sc.cur, sc.rest);
    next := sc;
    if step.ret == 1 {
      DrainOneMore(u, s, |sc.line|);
      var c := step.out[0];
      TakeOne(p, n - 1, sc.line, step.out, Pending(step.rio, step.rest));
      if c == Newline {
        r := Reply(n, sc.line + step.out + [Nul], step.rio, step.rest);
        assert p[n - 1] == Newline && r.out == p[..n] + [Nul];
        assert Pending(r.rio, r.rest) == p[n..] && HitsFail(r.rest) == fails;
        return true, next, r, AtNewline;
      }
      NoNewlineAppend(sc.line, step.out);
      next := Scan(step.rio, step.rest, sc.line + step.out);
      return false, next, step, AtRoom;
    }
    TakeNone(p, n - 1, sc.line);
    if step.ret < 0 {
      return true, next, Reply(-1, sc.line, step.rio, step.rest), AtError;
    } else if n == 1 {
      return true, next, Reply(0, [], step.rio, step.rest), AtEnd;
    }
    return true, next, Reply(n - 1, sc.line + [Nul], step.rio, step.rest), AtEnd;
  }

  /** The loop of rio_readlineb and the return after it. */
  method ScanLine(rio: Rio, s: Script, maxlen: nat) returns (r: Reply, stop: Stop)
    requires rio.Valid()
    ensures r.rio.fd == rio.fd
    ensures Scanned(Pending(rio, s), maxlen, HitsFail(s), r, stop)
    ensures stop == AtNewline || stop == AtRoom ==> (r.rio.Unread(), r.rest) == Drain(rio.Unread(), s, r.ret)
    ensures maxlen <= 1 ==> r == Reply(0, [Nul], rio, s)
  {
    ghost var p := Pending(rio, s);
    var sc := Scan(rio, s, []);
    var n := 1;
    while n < maxlen
      invariant Scanning(sc, p, HitsFail(s)) && sc.cur.fd == rio.fd
      invariant Drained(sc, rio.Unread(), s)
      invariant 1 <= n && |sc.line| == n - 1 && n - 1 <= Room(maxlen)
      invariant n == 1 ==> sc == Scan(rio, s, [])
      decreases maxlen - n
    {
      var done, next, reply, how := ScanByte(sc, maxlen, p, HitsFail(s), rio.Unread(), s);
      if done {
        return reply, how;
      }
      sc, n := next, n + 1;
    }
    r, stop := Reply(n - 1, sc.line + [Nul], sc.cur, sc.rest), AtRoom;
  }

  /** Storing a byte other than a newline keeps the line free of newlines. */
  lemma NoNewlineAppend(l: seq<byte>, c: seq<byte>)
    requires NoNewline(l) && |c| == 1 && c[0] != Newline
    ensures NoNewline(l + c)
  {
    assert forall i :: 0 <= i < |l| ==> (l + c)[i] == l[i];
  }

  /** Bytes that run out before the room does, with no newline among
      them, do not finish a line. */
  lemma ShortLineNotEnded(p: seq<byte>, room: nat)
    requires |p| < room && NoNewline(p)
    ensures !Ended(Line(p, room), room)
  {
    var l := Line(p, room);
    if l != [] {
      assert l[|l| - 1] == p[|l| - 1];
    }
  }

  /** Every way the scan can stop gives the expected record. */
  lemma ScannedMeets(p: seq<byte>, maxlen: nat, fails: bool, r: Reply, stop: Stop)
    requires Scanned(p, maxlen, fails, r, stop)
    ensures Meets(r, LineRecord(p, maxlen, fails), fails)
    ensures Ended(Line(p, Room(maxlen)), Room(maxlen)) ==> stop == AtNewline || stop == AtRoom
  {
    match stop
    case AtNewline =>
      var k := r.ret - 1;
      assert forall j :: 0 <= j < k ==> p[..k][j] == p[j];
      ReadLineStopsAfterNewline(p, maxlen, fails, k);
    case AtRoom =>
      assert forall j :: 0 <= j < r.ret ==> p[..r.ret][j] == p[j];
      ReadLineCutsLongLine(p, maxlen, fails);
    case AtError =>
      ReadLineFails(p, maxlen);
      ShortLineNotEnded(p, Room(maxlen));
    case AtEnd =>
      ShortLineNotEnded(p, Room(maxlen));
      if p == [] {
        ReadLineAtEof(maxlen);
      } else {
        ReadLinePartialAtEof(p, maxlen);
      }
  }

  /** rio_readlineb(rp, usrbuf, maxlen): reads one byte at a time until it
      has stored a newline, stored Room(maxlen) bytes, or reached end of
      file or an error; see LineRecord. */
  method ReadLineB(rio: Rio, s: Script, maxlen: nat) returns (r: Reply)
    requires rio.Valid()
    ensures r.rio.fd == rio.fd
    ensures Meets(r, LineRecord(Pending(rio, s), maxlen, HitsFail(s)), HitsFail(s))
    ensures maxlen <= 1 ==> r == Reply(0, [Nul], rio, s)
    // a finished line leaves the bytes after it in rio_buf: the reader and
    // the descriptor stand where handing out the line's bytes leaves them
    ensures Ended(Line(Pending(rio, s), Room(maxlen)), Room(maxlen)) ==>
              r.ret >= 0 && (r.rio.Unread(), r.rest) == Drain(rio.Unread(), s, r.ret)
    // and a line already buffered is served without read()
    ensures Ended(Line(Pending(rio, s), Room(maxlen)), Room(maxlen)) && r.ret <= |rio.Unread()| ==>
              r.rest == s && r.rio.Unread() == rio.Unread()[r.ret..]
  {
    var stop;
    r, stop := ScanLine(rio, s, maxlen);
    ScannedMeets(Pending(rio, s), maxlen, HitsFail(s), r, stop);
    if Ended(Line(Pending(rio, s), Room(maxlen)), Room(maxlen)) && r.ret <= |rio.Unread()| {
      DrainBuffered(rio.Unread(), s, r.ret);
    }
  }
}

=== FILE: rio_unbuffered.dfy ===
/** rio_readn: the unbuffered read-n loop (web-server/common.c). */
module RioUnbuffered {
  import opened Common
  import opened Transport

  /** What rio_readn hands back: its return value, the bytes it stored at the
      front of the caller's buffer (the rest of that buffer is untouched), and
      the script left for later reads. */
  datatype Reply = Reply(ret: int, out: seq<byte>, rest: Script)

  /** The loop of rio_readn with `nleft` bytes still wanted and `done` already
      stored. */
  function ReadNLoop(s: Script, n: nat, nleft: nat, done: seq<byte>): (r: Reply)
    requires |done| + nleft == n
    ensures ReadNOutcome(n, done + Stream(s), HitsFail(s), r.ret, r.out)
    ensures r.ret >= 0 ==> done + Stream(s) == r.out + Stream(r.rest) && HitsFail(r.rest) == HitsFail(s)
    decreases Weight(s)
  {
    if nleft == 0 then Reply(n - nleft, done, s)
    else
      var (got, s') := Read(s, nleft);
      match got
      case Failed => Reply(-1, done, s')
      case EndOfFile => Reply(n - nleft, done, s')
      case Interrupted => ReadNLoop(s', n, nleft, done)
      case Got(d) =>
        assert done + Stream(s) == (done + d) + Stream(s');
        ReadNLoop(s', n, nleft - |d|, done + d)
  }

  /** rio_readn(fd, usrbuf, n): `n` bytes if the stream has that many before
      end of file or an error, the short count at end of file, -1 on an
      error other than an interruption; never reads when `n` is 0. */
  function ReadN(s: Script, n: nat): (r: Reply)
    ensures ReadNOutcome(n, Stream(s), HitsFail(s), r.ret, r.out)
    ensures -1 <= r.ret <= n
    ensures r.ret >= 0 ==> Stream(s) == r.out + Stream(r.rest) && HitsFail(r.rest) == HitsFail(s)
    ensures n == 0 ==> r == Reply(0, [], s)
  {
    ReadNLoop(s, n, n, [])
  }

  /** An interrupted read makes no progress and is retried: it changes
      nothing about the call, not even the script left behind. */
  lemma ReadNIgnoresInterrupts(s: Script, n: nat)
    requires n > 0
    ensures ReadN([Intr] + s, n) == ReadN(s, n)
  {
    assert ([Intr] + s)[1..] == s;
  }

  /** Two descriptors that deliver the same bytes and end the same way give
      the same count and the same stored bytes, however they chunk the bytes
      and wherever they are interrupted. */
  lemma ReadNIgnoresChunking(s1: Script, s2: Script, n: nat)
    requires Stream(s1) == Stream(s2) && HitsFail(s1) == HitsFail(s2)
    ensures ReadN(s1, n).ret == ReadN(s2, n).ret
    ensures ReadN(s1, n).out == ReadN(s2, n).out
  {
    var r1, r2 := ReadN(s1, n), ReadN(s2, n);
    ReadNOutcomeUnique(n, Stream(s1), HitsFail(s1), r1.ret, r1.out, r2.ret, r2.out);
  }

  /** A script handing over `p` one byte per read, then end of file. */
  function Trickle(p: seq<byte>): Script
    decreases |p|
  {
    if p == [] then [Eof] else [Data([p[0]])] + Trickle(p[1..])
  }

  /** A trickling script delivers exactly its bytes and ends at end of
      file. */
  lemma {:induction false} TrickleStream(p: seq<byte>)
    ensures Stream(Trickle(p)) == p && !HitsFail(Trickle(p))
    decreases |p|
  {
    if p != [] {
      assert Trickle(p)[1..] == Trickle(p[1..]);
      TrickleStream(p[1..]);
    }
  }

  /** A descriptor that trickles its bytes one at a time gives rio_readn
      the same result as one that delivers them in a single chunk. */
  lemma ShortReadsGiveSameResult(p: Chunk, n: nat)
    ensures ReadN(Trickle(p), n).ret == ReadN([Data(p), Eof], n).ret
    ensures ReadN(Trickle(p), n).out == ReadN([Data(p), Eof], n).out
  {
    TrickleStream(p);
    assert [Data(p), Eof][1..] == [Eof];
    assert Stream([Data(p), Eof]) == p + Stream([Eof]);
    ReadNIgnoresChunking(Trickle(p), [Data(p), Eof], n);
  }
}

=== FILE: transport.dfy ===
/** The byte-stream descriptor behind the robust-I/O layer, as a finite script
    of what its successive read(2) calls do. One call consumes one event; a
    data chunk longer than the request is split and its tail stays first in
    the script. End of file is permanent: a read that sees it leaves it in
    place, and the end of the script reads as end of file too. */
module Transport {
  import opened Common

  /** The bytes one successful read(2) can hand over: never empty, since a
      read that returns 0 is end of file. */
  type Chunk = c: seq<byte> | |c| > 0 witness [0]

  datatype Event =
    | Data(chunk: Chunk)  // these bytes are ready to be read
    | Intr                // the call is interrupted by a signal (errno EINTR)
    | Fail                // the call fails with any other errno
    | Eof                 // the peer has closed the stream

  type Script = seq<Event>

  /** What one read(2) call reports: a positive count with its bytes, 0, or
      -1 with errno EINTR or another errno. */
  datatype ReadReturn = Got(data: Chunk) | EndOfFile | Interrupted | Failed

  /** The bytes the descriptor will deliver, in order, before it reaches end
      of file or an error, whatever the chunking and however many
      interruptions come in between. */
  function Stream(s: Script): seq<byte>
  {
    if s == [] then []
    else match s[0]
      case Data(c) => c + Stream(s[1..])
      case Intr => Stream(s[1..])
      case Fail => []
      case Eof => []
  }

  /** Whether the delivered bytes are followed by an error rather than by end
      of file. */
  predicate HitsFail(s: Script)
  {
    if s == [] then false
    else match s[0]
      case Data(_) => HitsFail(s[1..])
      case Intr => HitsFail(s[1..])
      case Fail => true
      case Eof => false
  }

  /** Events plus undelivered bytes: every read that does not report end of
      file makes it smaller. */
  function Weight(s: Script): nat
  {
    if s == [] then 0
    else (if s[0].Data? then |s[0].chunk| else 0) + 1 + Weight(s[1..])
  }

  /** One read(2) call asking for up to `k` bytes, with the script left
      after it. */
  function Read(s: Script, k: nat): (r: (ReadReturn, Script))
    requires k > 0
    ensures r.0.Got? ==> |r.0.data| <= k
    ensures r.0.Got? ==> r.0.data + Stream(r.1) == Stream(s) && HitsFail(r.1) == HitsFail(s)
    ensures r.0.Interrupted? ==> Stream(r.1) == Stream(s) && HitsFail(r.1) == HitsFail(s)
    ensures r.0.EndOfFile? ==> r.1 == s && Stream(s) == [] && !HitsFail(s)
    ensures r.0.Failed? ==> Stream(s) == [] && HitsFail(s)
    ensures !r.0.EndOfFile? ==> Weight(r.1) < Weight(s)
  {
    if s == [] then (EndOfFile, s)
    else match s[0]
      case Eof => (EndOfFile, s)
      case Intr => (Interrupted, s[1..])
      case Fail => (Failed, s[1..])
      case Data(c) =>
        if |c| <= k then (Got(c), s[1..])
        else
          var tail := [Data(c[k..])] + s[1..];
          assert tail[1..] == s[1..];
          assert c == c[..k] + c[k..];
          (Got(c[..k]), tail)
  }

  /** The bytes the first read(2) that is not interrupted hands over when
      it asks for up to `k`: the front of the next data chunk, or nothing
      when an error or end of file comes first. */
  function NextChunk(s: Script, k: nat): seq<byte>
  {
    if s == [] then []
    else match s[0]
      case Data(c) => c[..Min(|c|, k)]
      case Intr => NextChunk(s[1..], k)
      case Fail => []
      case Eof => []
  }

  /** The script left after that read(2): the interruptions before it are
      used up, and a longer chunk keeps its tail first. */
  function AfterChunk(s: Script, k: nat): Script
    requires k > 0
  {
    if s != [] && s[0].Intr? then AfterChunk(s[1..], k) else Read(s, k).1
  }

  /** That chunk is where the stream starts, holds at most `k` bytes, and
      is empty only when the stream is; when it is not empty, the script
      left after it delivers the rest of the stream and ends the same way. */
  lemma {:induction false} NextChunkStartsStream(s: Script, k: nat)
    requires k > 0
    ensures |NextChunk(s, k)| <= k
    ensures NextChunk(s, k) <= Stream(s)
    ensures NextChunk(s, k) == [] <==> Stream(s) == []
    ensures NextChunk(s, k) != [] ==>
              NextChunk(s, k) + Stream(AfterChunk(s, k)) == Stream(s) && HitsFail(AfterChunk(s, k)) == HitsFail(s)
  {
    if s != [] && s[0].Intr? {
      NextChunkStartsStream(s[1..], k);
    }
  }

  /** The outcome a read-n loop promises when the descriptor's next bytes
      are `p` and, after them, it reports an error (`fails`) or end of file:
      `n` bytes if that many come first, otherwise -1 on an error or the
      short count at end of file. `out` is what was stored in the caller's
      buffer in each case. */
  predicate ReadNOutcome(n: nat, p: seq<byte>, fails: bool, ret: int, out: seq<byte>)
  {
    if |p| >= n then ret == n && out == p[..n]
    else if fails then ret == -1 && out == p
    else ret == |p| && out == p
  }

  /** The bounds every read-n outcome keeps: the count lies in [0, n] or is
      -1, and a non-negative count is the number of bytes stored. */
  lemma ReadNOutcomeBounds(n: nat, p: seq<byte>, fails: bool, ret: int, out: seq<byte>)
    requires ReadNOutcome(n, p, fails, ret, out)
    ensures -1 <= ret <= n
    ensures ret >= 0 ==> |out| == ret && out == p[..ret]
    ensures ret == -1 <==> |p| < n && fails
    ensures 0 <= ret < n ==> out == p && !fails
  {
  }

  /** A read-n outcome is fixed by the stream alone. */
  lemma ReadNOutcomeUnique(n: nat, p: seq<byte>, fails: bool,
                           ret1: int, out1: seq<byte>, ret2: int, out2: seq<byte>)
    requires ReadNOutcome(n, p, fails, ret1, out1)
    requires ReadNOutcome(n, p, fails, ret2, out2)
    ensures ret1 == ret2 && out1 == out2
  {
  }

  /** An interruption is invisible to the stream. */
  lemma InterruptIsTransparent(s: Script)
    ensures Stream([Intr] + s) == Stream(s)
    ensures HitsFail([Intr] + s) == HitsFail(s)
  {
    assert ([Intr] + s)[1..] == s;
  }

  /** Splitting a chunk in two does not change the stream. */
  lemma SplitChunkIsTransparent(a: Chunk, b: Chunk, s: Script)
    ensures Stream([Data(a + b)] + s) == Stream([Data(a), Data(b)] + s)
    ensures HitsFail([Data(a + b)] + s) == HitsFail([Data(a), Data(b)] + s)
  {
    assert ([Data(a + b)] + s)[1..] == s;
    assert ([Data(a), Data(b)] + s)[1..] == [Data(b)] + s;
    assert ([Data(b)] + s)[1..] == s;
  }
}
